=== FILE: README.md ===
# In-app browser warning, modelled in Dafny

This is a Discourse theme component that warns users of embedded "in-app" browsers, such as social-media webviews, that logging in may fail there. The repository holds three variants of one mechanism:

- **Settings-driven initializer** (`javascripts/discourse/initializers/inapp-browser-warning.js`, module `ConfiguredWarning`). It is gated by the `inapp_browser_warning_enabled` setting. It normalises the configured user-agent needles (join with `|`, lower-case, split on `|`, trim, drop empties) and matches them against the lower-cased user agent. If some needle matches, it subscribes a page-change callback. On login-related routes that callback prepends one banner with class `inapp-browser-warning` that carries the configured message.
- **Guarded initializer** (`common/initializer.js`, module `GuardedWarning`). It classifies the user agent with `/Snapchat|Instagram|FBAN|FBAV|Line|TikTok|Twitter|LinkedIn/i`, inside a try/catch that logs and swallows any exception. An in-app agent gets a page-change callback. That callback appends one banner with id `inapp-browser-warning` unless one exists. The callback runs outside the try.
- **Api-initializer** (`common/javascripts/discourse/api-initializers/in-app-browser-warning.js`, module `ApiWarning`). It classifies with `/snapchat|instagram|fban|fbav|fb_iab|linkedinapp|tiktok|line/i`. `ensureBanner` appends one banner by id. While `document.body` does not exist yet, it re-schedules itself with `setTimeout`. An in-app agent gets one `ensureBanner` at startup and one per page change.

The shared pieces are:

- `Text`: ASCII lower-casing, the ECMAScript `trim` whitespace set, `split`/`join`, `startsWith`, `includes`.
- `Dom`: elements, id/class lookups, and a `Document` class whose `body` is absent until the parser creates it.
- `Alternation`: a case-insensitive regular expression made only of literal alternatives. Its `test` is a leftmost scan.

Each page-change callback has two forms. The settings-driven and guarded callbacks are pure functions on the body that return an `Effect` (the new body, and whether the callback threw). `ensureBanner` is a function on a `State`: the body and the number of pending retries. The imperative forms act on `Document`, and for `ensureBanner` also on the timer queue. Each has a postcondition equal to its function. Sequences of page changes, fired timers and body creation are folds of those functions, and the invariants are lemmas over all such sequences.

## Model

| member | source | states |
|---|---|---|
| `ConfiguredWarning.IsLoginRoute` | javascripts/discourse/initializers/inapp-browser-warning.js:11-20 | The five tests of `isLoginRoute` on the path, a missing path read as "". `LoginRouteIff` characterises it as "starts with one of the four prefixes". |
| `ConfiguredWarning.LoginRouteIff` | javascripts/discourse/initializers/inapp-browser-warning.js:11-20 | A path is a login route iff it starts with `/login`, `/auth/`, `/session/` or `/u/`. The exact `"/login"` test is subsumed. A missing path is never a login route. |
| `ConfiguredWarning.LoginRouteExtends` | javascripts/discourse/initializers/inapp-browser-warning.js:11-20 | Every path that extends a login route is a login route. |
| `ConfiguredWarning.NormaliseNeedles` | javascripts/discourse/initializers/inapp-browser-warning.js:23-28 | The needle pipeline: join with `\|`, lower-case, split on `\|`, trim, drop empties, a missing list read as empty. `NeedlesWellFormed` and `NeedlesPerEntry` characterise its result. |
| `ConfiguredWarning.NeedlesWellFormed` | javascripts/discourse/initializers/inapp-browser-warning.js:23-28 | Every normalised needle is non-empty and lower-case, contains no `\|`, and has no whitespace at either end. |
| `ConfiguredWarning.TrimAndDropEmpty` | javascripts/discourse/initializers/inapp-browser-warning.js:27-28 | `.map((s) => s.trim()).filter(Boolean)` on the split pieces, in order. `TrimAndDropEmptyMembers` states which pieces it keeps, and `NeedlesPerEntry` states the order entry by entry. |
| `ConfiguredWarning.TrimAndDropEmptyMembers` | javascripts/discourse/initializers/inapp-browser-warning.js:27-28 | The map/filter step keeps exactly the trimmed pieces that are non-empty. |
| `ConfiguredWarning.NeedlesPerEntry` | javascripts/discourse/initializers/inapp-browser-warning.js:23-28 | The needle list is, in order, each entry's own needles. An entry holding `\|` contributes each of its pieces, and no piece spans two entries. |
| `ConfiguredWarning.SomeIncluded` | javascripts/discourse/initializers/inapp-browser-warning.js:30 | `some` is true iff some needle occurs in the string. |
| `ConfiguredWarning.UaMatches` | javascripts/discourse/initializers/inapp-browser-warning.js:22-30 | A match holds iff some normalised needle occurs in the lower-cased user agent. A missing agent counts as "". |
| `ConfiguredWarning.NoNeedlesNoMatch` | javascripts/discourse/initializers/inapp-browser-warning.js:23-30 | A missing or empty needle list normalises to no needles and never matches. |
| `ConfiguredWarning.MatchIgnoresCase` | javascripts/discourse/initializers/inapp-browser-warning.js:22-30 | The needles and the match depend neither on the case of the user agent nor on the case of the configured entries. |
| `ConfiguredWarning.Banner` | javascripts/discourse/initializers/inapp-browser-warning.js:39-41 | The banner carries the banner class and the configured message. |
| `ConfiguredWarning.Initialize` | javascripts/discourse/initializers/inapp-browser-warning.js:8-33 | A disabled setting returns before anything else. Otherwise the callback is subscribed iff the user agent matches. |
| `ConfiguredWarning.OnPageChange` | javascripts/discourse/initializers/inapp-browser-warning.js:33-45 | Off a login route, or with a banner already present, the body is unchanged. Otherwise the banner becomes the first child, the old children follow in order, and there is exactly one banner. The callback throws iff on a login route with no body. |
| `ConfiguredWarning.HandlePageChange` | javascripts/discourse/initializers/inapp-browser-warning.js:33-45 | Running the callback on the document gives exactly the new body and the throw that `OnPageChange` prescribes. |
| `ConfiguredWarning.PageChangesKeepOneBanner` | javascripts/discourse/initializers/inapp-browser-warning.js:33-45 | Start with at most one banner. Any sequence of page changes then keeps at most one, never removes it and leaves other elements unchanged. After a visit to a login route there is exactly one. |
| `ConfiguredWarning.Session` | javascripts/discourse/initializers/inapp-browser-warning.js:7-45 | A page session: startup, then one callback run per page change when subscribed. `InactiveSessionLeavesDocument` and `SessionKeepsOneBanner` characterise it. |
| `ConfiguredWarning.InactiveSessionLeavesDocument` | javascripts/discourse/initializers/inapp-browser-warning.js:8-31 | With the setting off, or a user agent that matches no needle, no page change touches the document. |
| `ConfiguredWarning.SessionKeepsOneBanner` | javascripts/discourse/initializers/inapp-browser-warning.js:7-46 | A whole session never creates a second banner and never disturbs other elements. |
| `Text.ToLower` | javascripts/discourse/initializers/inapp-browser-warning.js:22-25 | Its contract states that `toLowerCase` leaves no upper-case ASCII letter. The body lower-cases ASCII only, one character for one character, so the length is kept (see "## Left out"). |
| `Text.StartsWith` | javascripts/discourse/initializers/inapp-browser-warning.js:15-18 | `startsWith`: the string is at least as long as the prefix, and its first characters are the prefix. `ConfiguredWarning.LoginRouteIff` and `LoginRouteExtends` use it. |
| `Text.Includes` | javascripts/discourse/initializers/inapp-browser-warning.js:30 | `includes`: the needle occurs at some index of the string. `ConfiguredWarning.SomeIncluded` and `Alternation.TestIff` are stated with it. |
| `Text.Split` | javascripts/discourse/initializers/inapp-browser-warning.js:26 | `split` always gives at least one piece. No piece holds the separator. Joining the pieces restores the string, and splitting a lower-case string gives lower-case pieces. |
| `Text.Join` | javascripts/discourse/initializers/inapp-browser-warning.js:24 | `join` with a one-character separator. `Text.Split` ensures joining its pieces restores the string, and `SplitJoin` gives the converse. |
| `Text.SplitJoin` | javascripts/discourse/initializers/inapp-browser-warning.js:24-26 | Splitting a joined list of separator-free parts gives back the parts. |
| `Text.Trim` | javascripts/discourse/initializers/inapp-browser-warning.js:27 | The result of `trim` neither starts nor ends with whitespace. `TrimIsMiddle` adds that it is a contiguous middle of the input. |
| `Text.TrimIsMiddle` | javascripts/discourse/initializers/inapp-browser-warning.js:27 | `trim` returns a contiguous middle of the string, with only whitespace cut from either end. |
| `Text.TrimKeepsText` | javascripts/discourse/initializers/inapp-browser-warning.js:27 | `trim` keeps every character that is not whitespace. |
| `Alternation.Search` | common/initializer.js:12 | The scan returns the leftmost position where some alternative matches case-insensitively. It returns none iff no position matches. |
| `Alternation.Test` | common/initializer.js:11-12 | `test` succeeds iff the leftmost scan `Search` finds a position. `TestIff` characterises it as a case-insensitive substring test. |
| `Alternation.TestIff` | common/initializer.js:11-12 | The regular expression's `test` is true iff some lower-cased alternative is a substring of the lower-cased input. |
| `GuardedWarning.IsInApp` | common/initializer.js:11-12 | `isInApp` is the pattern's `test` on the agent. `IsInAppIff` names the eight words it looks for. |
| `GuardedWarning.IsInAppIff` | common/initializer.js:11-12 | An agent is in-app iff it contains, ignoring case, one of snapchat, instagram, fban, fbav, line, tiktok, twitter or linkedin. |
| `GuardedWarning.EmptyAgentNotInApp` | common/initializer.js:9-12 | The empty agent, which a missing agent becomes, is not in-app. |
| `GuardedWarning.Initialize` | common/initializer.js:8-44 | The callback is subscribed iff the agent read returns, the agent is in-app and subscribing returns. A throwing read or subscription is caught (the logging is left out) and never propagated. A missing agent gives not in-app. |
| `GuardedWarning.OnPageChange` | common/initializer.js:16-39 | With a banner present, the body is unchanged. Otherwise the banner is appended as the last child, the earlier children are unchanged, and there is exactly one banner. The callback throws into the host iff the body is missing. |
| `GuardedWarning.HandlePageChange` | common/initializer.js:16-39 | Running the callback on the document gives exactly what `OnPageChange` prescribes. |
| `GuardedWarning.PageChangesKeepOneBanner` | common/initializer.js:16-39 | Start with at most one banner. After n page changes the other elements are unchanged. There is exactly one banner once n > 0. |
| `GuardedWarning.Session` | common/initializer.js:8-44 | A page session: startup, then n page changes that run the callback only when subscribed. `UnsubscribedSessionLeavesDocument` and `SessionKeepsOneBanner` characterise it. |
| `GuardedWarning.UnsubscribedSessionLeavesDocument` | common/initializer.js:8-44 | If the agent is not in-app, or the read or subscription threw, no page change touches the document. |
| `GuardedWarning.SessionKeepsOneBanner` | common/initializer.js:14-39 | A session keeps at most one banner and never disturbs other elements. A subscribed session with at least one page change has exactly one banner. |
| `ApiWarning.IsProbablyInAppBrowser` | common/javascripts/discourse/api-initializers/in-app-browser-warning.js:3-5 | `isProbablyInAppBrowser` is the pattern's `test` on the agent. `IsProbablyInAppBrowserIff` names the eight literals it looks for. |
| `ApiWarning.IsProbablyInAppBrowserIff` | common/javascripts/discourse/api-initializers/in-app-browser-warning.js:3-5 | An agent is in-app iff it contains, ignoring case, one of snapchat, instagram, fban, fbav, fb_iab, linkedinapp, tiktok or line. |
| `ApiWarning.UserAgentOf` | common/javascripts/discourse/api-initializers/in-app-browser-warning.js:23 | `(navigator && navigator.userAgent) \|\| ""`. `MissingAgentNotInApp` states that a missing navigator or agent gives "", which is not in-app. |
| `ApiWarning.MissingAgentNotInApp` | common/javascripts/discourse/api-initializers/in-app-browser-warning.js:23-24 | A missing navigator or user agent becomes "", which is not in-app. |
| `ApiWarning.Ensure` | common/javascripts/discourse/api-initializers/in-app-browser-warning.js:7-20 | With a banner present, nothing changes and no retry is scheduled. Without a body, the document is unchanged and exactly one retry is scheduled. Otherwise the banner is appended as the last child, the other children are unchanged, and at most one banner is kept. |
| `ApiWarning.EnsureBanner` | common/javascripts/discourse/api-initializers/in-app-browser-warning.js:7-20 | On the document and timer queue, `ensureBanner` produces exactly the state `Ensure` prescribes. |
| `ApiWarning.Step` | common/javascripts/discourse/api-initializers/in-app-browser-warning.js:9-27 | One event: a page change runs `Ensure` when subscribed, a firing timer consumes one retry and runs `Ensure`, and the parser creates the body once. `RetryAfterBodyShowsBanner` and `RetryBeforeBodyRearms` characterise the timer step. |
| `ApiWarning.RunKeepsAtMostOneBanner` | common/javascripts/discourse/api-initializers/in-app-browser-warning.js:7-27 | Any interleaving of `ensureBanner` calls, fired retries, page changes and body creation leaves at most one banner. |
| `ApiWarning.RetryAfterBodyShowsBanner` | common/javascripts/discourse/api-initializers/in-app-browser-warning.js:7-20 | A pending retry that fires after the body exists leaves the banner present. |
| `ApiWarning.RetryBeforeBodyRearms` | common/javascripts/discourse/api-initializers/in-app-browser-warning.js:9-12 | A retry that fires before the body exists re-schedules itself and changes nothing. |
| `ApiWarning.RunKeepsBannerOrRetry` | common/javascripts/discourse/api-initializers/in-app-browser-warning.js:7-20 | When subscribed, the condition "banner present or a retry pending" survives every event. |
| `ApiWarning.Session` | common/javascripts/discourse/api-initializers/in-app-browser-warning.js:22-27 | A page session: one `Ensure` at startup for an in-app agent, then the events. `InAppSessionShowsOrRetries` and `NotInAppSessionIsParserOnly` characterise it. |
| `ApiWarning.InAppSessionShowsOrRetries` | common/javascripts/discourse/api-initializers/in-app-browser-warning.js:22-28 | For an in-app agent, after startup and any events, the banner is present or a retry that will place it is still pending. |
| `ApiWarning.UnsubscribedRunIsParserOnly` | common/javascripts/discourse/api-initializers/in-app-browser-warning.js:24-27 | With nothing subscribed and nothing scheduled, page changes and timers change nothing, and no retry is ever scheduled. |
| `ApiWarning.NotInAppSessionIsParserOnly` | common/javascripts/discourse/api-initializers/in-app-browser-warning.js:22-24 | For an agent that is not in-app, starting with no retry pending, the session changes the document only through the parser's own body creation, and no retry is ever scheduled. |
| `ApiWarning.InstagramIsInApp` | common/javascripts/discourse/api-initializers/in-app-browser-warning.js:3-5 | The agent "Instagram" matches the pattern, ignoring case. |
| `ApiWarning.DeferredStartupShowsOneBanner` | common/javascripts/discourse/api-initializers/in-app-browser-warning.js:7-28 | An Instagram agent that starts before the body exists ends with exactly one banner. The retry is consumed once the body is created and the retry fires. |
| `ApiWarning.Start` | common/javascripts/discourse/api-initializers/in-app-browser-warning.js:22-27 | The callback is subscribed iff the agent is in-app. In that case `ensureBanner` runs once at startup. Otherwise nothing changes. |
| `ApiWarning.NotifyPageChange` | common/javascripts/discourse/api-initializers/in-app-browser-warning.js:27 | Each page change runs `ensureBanner` once when subscribed, and does nothing otherwise. |
| `ApiWarning.FireRetry` | common/javascripts/discourse/api-initializers/in-app-browser-warning.js:10 | A firing timer consumes one scheduled retry and runs `ensureBanner`. |
| `Dom.Document.Prepend` | javascripts/discourse/initializers/inapp-browser-warning.js:44 | `prepend` makes the element the first child and keeps the old children in order after it. |
| `Dom.Document.AppendChild` | common/initializer.js:38 | `appendChild` makes the element the last child and keeps the old children in order before it. |
| `Dom.Document.Lookup` | common/initializer.js:17 | The lookup finds an element iff the body exists and holds an element the selector matches. |

## Left out

- Host plumbing is left out: `withPluginApi`, `apiInitializer`, the API version strings, and the mechanics of `onPageChange`. A page change is an explicit call, or an element of an event sequence.
- Timers are left out. `setTimeout(ensureBanner, 50)` is a count of pending retries, and a timer firing is an explicit step. Delays and wall-clock order are not modelled.
- The regular-expression engine is left out. Each pattern is an alternation of plain literals, modelled as a leftmost scan with case-insensitive comparison of characters.
- Text.ToLower: lower-cases ASCII letters only. JavaScript's `toLowerCase` also maps non-ASCII letters, and it can change a string's length. For the two regular expressions this is exact, because their `i` flag never maps a non-ASCII character onto an ASCII one. For the settings-driven match it is an assumption.
- `style.cssText`, `innerHTML` parsing, `console.error` logging, and the `settings` object beyond the values passed in are left out. The banner text given through `innerHTML` contains no markup, so it is stored as plain text.
- The document is flat: the children of `document.body`. Nested descendants, `head`, and elements the lookups could find outside `body` are not modelled. Element identity and aliasing are not modelled either, because elements are values.
- For a parsed body to keep "at most one banner", the parser must not itself create two elements with the banner id. `ApiWarning.RunKeepsAtMostOneBanner` requires exactly that.
- GuardedWarning.Initialize: the regex test itself cannot throw, so the caught exceptions are the user-agent read and the subscription call. The model does not decide whether a subscription that threw may still have registered the callback; it treats it as not registered.
- A missing body makes the settings-driven callback throw a TypeError into the host on a login route (`document.body.prepend`), and the guarded callback throw on every page change (`document.body.appendChild`), since neither checks `document.body`. The model returns `threw = true` with the document unchanged. It does not model what the host does with the exception.
- Navigation interception, the modal overlay, clipboard copy, hand-off to an external browser and canonical-URL resolution do not appear in any of the three files, so they are not modelled.

=== FILE: alternation.dfy ===
/**
 * A case-insensitive regular expression made only of literal alternatives,
 * `/lit1|lit2|...|litN/i`, and its `test` method. The search tries each start position
 * from the left and, at each, each alternative in order, comparing characters without
 * regard to ASCII case, as a backtracking matcher does for plain literals.
 */
module Alternation {
  import opened Wrappers
  import opened Text

  /** Literal `lit` matches `s` at position `i`, character by character, ignoring case. */
  predicate MatchesAt(s: string, lit: string, i: nat) {
    i + |lit| <= |s| && forall k :: 0 <= k < |lit| ==> LowerChar(s[i + k]) == LowerChar(lit[k])
  }

  /** Some alternative matches at position `i`; the alternatives are tried in order. */
  function MatchHere(s: string, alts: seq<string>, i: nat): (r: bool)
    ensures r <==> exists k :: 0 <= k < |alts| && MatchesAt(s, alts[k], i)
  {
    |alts| > 0 && (MatchesAt(s, alts[0], i) || MatchHere(s, alts[1..], i))
  }

  /** The leftmost position at or after `from` where some alternative matches. */
  function Search(s: string, alts: seq<string>, from: nat): (r: Option<nat>)
    requires from <= |s|
    ensures r.Some? ==> from <= r.value <= |s| && MatchHere(s, alts, r.value)
    ensures r.Some? ==> forall j :: from <= j < r.value ==> !MatchHere(s, alts, j)
    ensures r.None? ==> forall j :: from <= j <= |s| ==> !MatchHere(s, alts, j)
    decreases |s| - from
  {
    if MatchHere(s, alts, from) then Some(from)
    else if from == |s| then None
    else Search(s, alts, from + 1)
  }

  /** `regex.test(s)` for `/alts[0]|alts[1]|.../i`. */
  predicate Test(alts: seq<string>, s: string) {
    Search(s, alts, 0).Some?
  }

  /** A case-insensitive match at `i` is an occurrence of the lower-cased literal in the lower-cased string. */
  lemma MatchesAtLower(s: string, lit: string, i: nat)
    ensures MatchesAt(s, lit, i) <==> OccursAt(ToLower(s), ToLower(lit), i)
  {
    if MatchesAt(s, lit, i) {
      assert forall k :: 0 <= k < |lit| ==> ToLower(s)[i..i + |lit|][k] == ToLower(lit)[k];
    }
    if OccursAt(ToLower(s), ToLower(lit), i) {
      forall k | 0 <= k < |lit| ensures LowerChar(s[i + k]) == LowerChar(lit[k]) {
        assert ToLower(s)[i..i + |lit|][k] == ToLower(s)[i + k];
      }
    }
  }

  /**
   * The test succeeds exactly when some alternative, lower-cased, is a substring of
   * the lower-cased input: the regex behaves as a case-insensitive `includes` of any literal.
   */
  lemma TestIff(alts: seq<string>, s: string)
    ensures Test(alts, s) <==> exists k :: 0 <= k < |alts| && Includes(ToLower(s), ToLower(alts[k]))
  {
    if Test(alts, s) {
      var i := Search(s, alts, 0).value;
      var k :| 0 <= k < |alts| && MatchesAt(s, alts[k], i);
      MatchesAtLower(s, alts[k], i);
      assert Includes(ToLower(s), ToLower(alts[k]));
    }
    if k :| 0 <= k < |alts| && Includes(ToLower(s), ToLower(alts[k])) {
      var i: nat :| i <= |ToLower(s)| && OccursAt(ToLower(s), ToLower(alts[k]), i);
      MatchesAtLower(s, alts[k], i);
      assert MatchHere(s, alts, i);
    }
  }
}

=== FILE: api_warning.dfy ===
/**
 * The api-initializer (common/javascripts/discourse/api-initializers/in-app-browser-warning.js).
 * `ensureBanner` appends one banner, found again by id; while `document.body` does not
 * exist yet it schedules itself again with a timer. At startup an in-app agent gets one
 * `ensureBanner` call and one more per page change.
 *
 * The timer queue is a count of scheduled, not yet run `ensureBanner` callbacks; a timer
 * firing is an explicit step. The parser creating the body is an explicit step too.
 */
module ApiWarning {
  import opened Wrappers
  import opened Text
  import opened Dom
  import opened Alternation

  const BannerId := "inapp-browser-warning"
  const BannerSelector := ById(BannerId)

  /** The banner: a `div` with the banner id and the fixed text. */
  const Banner := Element(BannerId, [], "Login may fail in in-app browsers (Snapchat/Instagram/etc). Open in Safari/Chrome.")

  /** The alternatives of `/snapchat|instagram|fban|fbav|fb_iab|linkedinapp|tiktok|line/i`. */
  const InAppPattern: seq<string> := ["snapchat", "instagram", "fban", "fbav", "fb_iab", "linkedinapp", "tiktok", "line"]

  /** `isProbablyInAppBrowser`: the regular expression's `test` on the user agent. */
  predicate IsProbablyInAppBrowser(userAgent: string) {
    Test(InAppPattern, userAgent)
  }

  /** The agent is in-app exactly when, ignoring case, it contains one of the eight words. */
  lemma IsProbablyInAppBrowserIff(userAgent: string)
    ensures IsProbablyInAppBrowser(userAgent) <==> exists w :: w in InAppPattern && Includes(ToLower(userAgent), w)
  {
    TestIff(InAppPattern, userAgent);
    forall k | 0 <= k < |InAppPattern| ensures ToLower(InAppPattern[k]) == InAppPattern[k] {
      ToLowerOfLowercase(InAppPattern[k]);
    }
    if IsProbablyInAppBrowser(userAgent) {
      var k :| 0 <= k < |InAppPattern| && Includes(ToLower(userAgent), ToLower(InAppPattern[k]));
      assert InAppPattern[k] in InAppPattern;
    }
    if w :| w in InAppPattern && Includes(ToLower(userAgent), w) {
      var k :| 0 <= k < |InAppPattern| && InAppPattern[k] == w;
      assert ToLower(InAppPattern[k]) == w;
    }
  }

  /** The browser's `navigator`, reduced to its user agent. */
  datatype Navigator = Navigator(userAgent: Option<string>)

  /** `(navigator && navigator.userAgent) || ""`. */
  function UserAgentOf(navigator: Option<Navigator>): string {
    if navigator.Some? then navigator.value.userAgent.GetOr("") else ""
  }

  /** A missing navigator or user agent gives "", which is not in-app. */
  lemma MissingAgentNotInApp(navigator: Option<Navigator>)
    requires navigator.None? || navigator.value.userAgent.None?
    ensures UserAgentOf(navigator) == ""
    ensures !IsProbablyInAppBrowser(UserAgentOf(navigator))
  {
    IsProbablyInAppBrowserIff("");
    forall w | w in InAppPattern ensures !Includes(ToLower(""), w) {
      assert |w| > 0;
    }
  }

  // ---------------------------------------------------------------------------
  // ensureBanner as a state machine

  /** The document's body and the number of `ensureBanner` retries waiting on a timer. */
  datatype State = State(body: Option<seq<Element>>, pending: nat)

  /** At most one banner in the document. */
  predicate AtMostOneBanner(s: State) {
    s.body.Some? ==> Count(s.body.value, BannerSelector) <= 1
  }

  predicate HasBanner(s: State) {
    s.body.Some? && Count(s.body.value, BannerSelector) > 0
  }

  /**
   * `ensureBanner`. With a banner present: nothing changes and nothing is scheduled.
   * Without a body: the document is unchanged and exactly one retry is scheduled. Otherwise
   * the banner is appended as the last child, the other children unchanged, and nothing
   * is scheduled.
   */
  function Ensure(s: State): (r: State)
    ensures HasBanner(s) ==> r == s
    ensures s.body.None? ==> r == State(None, s.pending + 1)
    ensures s.body.Some? ==> r.pending == s.pending && HasBanner(r)
    ensures s.body.Some? ==> Others(r.body.value, BannerSelector) == Others(s.body.value, BannerSelector)
    ensures r.body != s.body ==> s.body.Some? && r.body == Some(s.body.value + [Banner])
    ensures AtMostOneBanner(s) ==> AtMostOneBanner(r)
  {
    if s.body.Some? && QueryFirst(s.body.value, BannerSelector).Some? then s
    else if s.body.None? then State(None, s.pending + 1)
    else
      InsertOne(s.body.value, Banner, BannerSelector);
      State(Some(s.body.value + [Banner]), s.pending)
  }

  /** What can happen after startup: a page change, a retry timer firing, the parser creating the body. */
  datatype Event = PageChange | RetryFires | BodyCreated(children: seq<Element>)

  /**
   * One event. A page change runs `ensureBanner` only when the callback was subscribed; a
   * firing timer takes one scheduled retry, if any, and runs `ensureBanner`; the parser
   * creates the body once.
   */
  function Step(subscribed: bool, s: State, ev: Event): State {
    match ev
    case PageChange => if subscribed then Ensure(s) else s
    case RetryFires => if s.pending == 0 then s else Ensure(State(s.body, s.pending - 1))
    case BodyCreated(children) => if s.body.None? then State(Some(children), s.pending) else s
  }

  function Run(subscribed: bool, s: State, events: seq<Event>): State
    decreases |events|
  {
    if events == [] then s else Run(subscribed, Step(subscribed, s, events[0]), events[1..])
  }

  /** The page session: startup (one `ensureBanner` for an in-app agent), then the events. */
  function Session(navigator: Option<Navigator>, s: State, events: seq<Event>): State {
    if IsProbablyInAppBrowser(UserAgentOf(navigator)) then Run(true, Ensure(s), events)
    else Run(false, s, events)
  }

  /** The parser does not itself create a second banner. */
  predicate ParsedWithAtMostOneBanner(ev: Event) {
    ev.BodyCreated? ==> Count(ev.children, BannerSelector) <= 1
  }

  /** Any interleaving of page changes, fired retries and body creation keeps at most one banner. */
  lemma {:induction false} RunKeepsAtMostOneBanner(subscribed: bool, s: State, events: seq<Event>)
    requires AtMostOneBanner(s)
    requires forall i :: 0 <= i < |events| ==> ParsedWithAtMostOneBanner(events[i])
    ensures AtMostOneBanner(Run(subscribed, s, events))
    decreases |events|
  {
    if events != [] {
      assert ParsedWithAtMostOneBanner(events[0]);
      RunKeepsAtMostOneBanner(subscribed, Step(subscribed, s, events[0]), events[1..]);
    }
  }

  /** A retry that fires once the body exists leaves the banner present. */
  lemma RetryAfterBodyShowsBanner(subscribed: bool, s: State)
    requires s.pending > 0 && s.body.Some?
    ensures HasBanner(Step(subscribed, s, RetryFires))
  {
  }

  /** A retry that fires while there is still no body schedules itself again and changes nothing. */
  lemma RetryBeforeBodyRearms(subscribed: bool, s: State)
    requires s.pending > 0 && s.body.None?
    ensures Step(subscribed, s, RetryFires) == s
  {
  }

  /** Either the banner is present or a retry is still waiting that will put it there. */
  predicate BannerOrRetry(s: State) {
    HasBanner(s) || s.pending > 0
  }

  lemma {:induction false} RunKeepsBannerOrRetry(s: State, events: seq<Event>)
    requires BannerOrRetry(s)
    ensures BannerOrRetry(Run(true, s, events))
    decreases |events|
  {
    if events != [] {
      var next := Step(true, s, events[0]);
      assert BannerOrRetry(next) by {
        if HasBanner(s) {
          CountConcat(s.body.value, [], BannerSelector);
        }
      }
      RunKeepsBannerOrRetry(next, events[1..]);
    }
  }

  /**
   * For an in-app agent, after startup and any events, the banner is present or a retry
   * is pending: the deferred insertion is never lost.
   */
  lemma InAppSessionShowsOrRetries(navigator: Option<Navigator>, s: State, events: seq<Event>)
    requires IsProbablyInAppBrowser(UserAgentOf(navigator))
    ensures BannerOrRetry(Session(navigator, s, events))
  {
    RunKeepsBannerOrRetry(Ensure(s), events);
  }

  /** Only the parser's own steps: what happens to the document when nothing is subscribed. */
  function ParserOnly(s: State, events: seq<Event>): State
    decreases |events|
  {
    if events == [] then s
    else
      var next := match events[0]
        case BodyCreated(children) => if s.body.None? then State(Some(children), s.pending) else s
        case _ => s;
      ParserOnly(next, events[1..])
  }

  /**
   * With nothing subscribed and nothing scheduled, page changes and timers do nothing:
   * only the parser changes the document, and nothing is ever scheduled.
   */
  lemma {:induction false} UnsubscribedRunIsParserOnly(s: State, events: seq<Event>)
    requires s.pending == 0
    ensures Run(false, s, events) == ParserOnly(s, events)
    ensures Run(false, s, events).pending == 0
    decreases |events|
  {
    if events != [] {
      UnsubscribedRunIsParserOnly(Step(false, s, events[0]), events[1..]);
    }
  }

  /** An agent that is not in-app never gets a banner call, a retry or a subscription. */
  lemma NotInAppSessionIsParserOnly(navigator: Option<Navigator>, s: State, events: seq<Event>)
    requires !IsProbablyInAppBrowser(UserAgentOf(navigator))
    requires s.pending == 0
    ensures Session(navigator, s, events) == ParserOnly(s, events)
    ensures Session(navigator, s, events).pending == 0
  {
    UnsubscribedRunIsParserOnly(s, events);
  }

  /** The Instagram webview's agent matches the pattern. */
  lemma InstagramIsInApp()
    ensures IsProbablyInAppBrowser("Instagram")
  {
    var ua := "Instagram";
    assert ToLower(ua) == "instagram" by {
      assert |ToLower(ua)| == |ua|;
      assert forall i :: 0 <= i < |ua| ==> ToLower(ua)[i] == LowerChar(ua[i]);
    }
    assert OccursAt(ToLower(ua), "instagram", 0);
    assert "instagram" in InAppPattern;
    IsProbablyInAppBrowserIff(ua);
  }

  /**
   * An Instagram webview that starts before the body exists: startup schedules one retry,
   * the parser creates an empty body, the retry fires, and exactly one banner is shown.
   */
  lemma DeferredStartupShowsOneBanner()
    ensures Session(Some(Navigator(Some("Instagram"))), State(None, 0), [BodyCreated([]), RetryFires])
      == State(Some([Banner]), 0)
  {
    var ua := "Instagram";
    InstagramIsInApp();
    var started := Ensure(State(None, 0));
    assert started == State(None, 1);
    var parsed := Step(true, started, BodyCreated([]));
    assert parsed == State(Some([]), 1);
    var fired := Step(true, parsed, RetryFires);
    assert fired == Ensure(State(Some([]), 0));
    assert HasBanner(fired) && fired.body != Some([]);
    assert [] + [Banner] == [Banner];
    assert fired == State(Some([Banner]), 0);
    var events := [BodyCreated([]), RetryFires];
    assert events[1..] == [RetryFires];
    assert Run(true, parsed, [RetryFires]) == Run(true, fired, []);
    assert Run(true, started, events) == Run(true, parsed, [RetryFires]);
    assert UserAgentOf(Some(Navigator(Some(ua)))) == ua;
  }

  // ---------------------------------------------------------------------------
  // The same steps against the document and the timer queue

  /** The scheduled `setTimeout(ensureBanner, 50)` callbacks not yet run. */
  class RetryQueue {
    var pending: nat

    constructor ()
      ensures pending == 0
    {
      pending := 0;
    }
  }

  /** `ensureBanner` against the document and the timer queue. */
  method EnsureBanner(doc: Document, timers: RetryQueue)
    modifies doc, timers
    ensures State(doc.body, timers.pending) == Ensure(State(old(doc.body), old(timers.pending)))
  {
    if doc.Lookup(BannerSelector).Some? {
      return;
    }
    if doc.body.None? {
      timers.pending := timers.pending + 1;
      return;
    }
    var banner := Banner;
    doc.AppendChild(banner);
  }

  /** The startup callback: classify, and for an in-app agent run `ensureBanner` once and subscribe. */
  method Start(navigator: Option<Navigator>, doc: Document, timers: RetryQueue) returns (subscribed: bool)
    modifies doc, timers
    ensures subscribed == IsProbablyInAppBrowser(UserAgentOf(navigator))
    ensures subscribed ==> State(doc.body, timers.pending) == Ensure(State(old(doc.body), old(timers.pending)))
    ensures !subscribed ==> doc.body == old(doc.body) && timers.pending == old(timers.pending)
  {
    var ua := UserAgentOf(navigator);
    if !IsProbablyInAppBrowser(ua) {
      return false;
    }
    EnsureBanner(doc, timers);
    subscribed := true;
  }

  /** A page-change notification: the subscribed callback runs `ensureBanner` once. */
  method NotifyPageChange(subscribed: bool, doc: Document, timers: RetryQueue)
    modifies doc, timers
    ensures State(doc.body, timers.pending) == Step(subscribed, State(old(doc.body), old(timers.pending)), PageChange)
  {
    if subscribed {
      EnsureBanner(doc, timers);
    }
  }

  /** A timer firing: one scheduled retry, if any, runs `ensureBanner`. */
  method FireRetry(doc: Document, timers: RetryQueue)
    modifies doc, timers
    ensures State(doc.body, timers.pending) == Step(true, State(old(doc.body), old(timers.pending)), RetryFires)
  {
    if timers.pending > 0 {
      timers.pending := timers.pending - 1;
      EnsureBanner(doc, timers);
    }
  }
}

=== FILE: configured_warning.dfy ===
/**
 * The settings-driven initializer (javascripts/discourse/initializers/inapp-browser-warning.js).
 * When enabled, it lower-cases the user agent, normalises the configured needles, and
 * subscribes a page-change callback only if some needle occurs in the user agent. On
 * login-related routes the callback prepends one banner carrying the configured message.
 */
module ConfiguredWarning {
  import opened Wrappers
  import opened Text
  import opened Dom

  /** The theme settings this initializer reads. */
  datatype Settings = Settings(enabled: bool, uaSubstrings: Option<seq<string>>, message: string)

  const BannerClass := "inapp-browser-warning"
  const BannerSelector := ByClass(BannerClass)

  /** The banner: a `div` with the banner class whose text is the configured message. */
  function Banner(message: string): (e: Element)
    ensures Matches(e, BannerSelector) && e.text == message
  {
    Element("", [BannerClass], message)
  }

  // ---------------------------------------------------------------------------
  // Login routes

  const LoginPrefixes: seq<string> := ["/login", "/auth/", "/session/", "/u/"]

  /**
   * `isLoginRoute`: the exact `"/login"` test and the prefix tests; a missing path is
   * the empty string.
   */
  function IsLoginRoute(pathname: Option<string>): bool
  {
    var p := pathname.GetOr("");
    p == "/login" ||
    StartsWith(p, "/login") ||
    StartsWith(p, "/auth/") ||
    StartsWith(p, "/session/") ||
    StartsWith(p, "/u/")
  }

  /**
   * A path is a login route exactly when it starts with one of the login prefixes (the
   * exact `"/login"` test is subsumed); a missing path never is.
   */
  lemma LoginRouteIff(pathname: Option<string>)
    ensures IsLoginRoute(pathname) <==> exists prefix :: prefix in LoginPrefixes && StartsWith(pathname.GetOr(""), prefix)
    ensures pathname.None? ==> !IsLoginRoute(pathname)
  {
    var p := pathname.GetOr("");
    if p == "/login" {
      assert StartsWith(p, "/login");
    }
    if IsLoginRoute(pathname) {
      var prefix := if StartsWith(p, "/login") then "/login"
        else if StartsWith(p, "/auth/") then "/auth/"
        else if StartsWith(p, "/session/") then "/session/"
        else "/u/";
      assert prefix in LoginPrefixes && StartsWith(p, prefix);
    }
    forall prefix | prefix in LoginPrefixes && StartsWith(p, prefix) ensures IsLoginRoute(pathname) {
      assert prefix == LoginPrefixes[0] || prefix == LoginPrefixes[1] || prefix == LoginPrefixes[2] || prefix == LoginPrefixes[3];
    }
  }

  /** A path below a login route is a login route too. */
  lemma LoginRouteExtends(p: string, q: string)
    requires IsLoginRoute(Some(p))
    ensures IsLoginRoute(Some(p + q))
  {
    LoginRouteIff(Some(p));
    LoginRouteIff(Some(p + q));
    var prefix :| prefix in LoginPrefixes && StartsWith(p, prefix);
    assert (p + q)[..|prefix|] == p[..|prefix|];
    assert StartsWith(p + q, prefix);
  }

  // ---------------------------------------------------------------------------
  // Needles and the user-agent match

  /** A normalised needle: non-empty, lower-case, without `|`, with no whitespace at either end. */
  predicate IsNeedle(n: string) {
    n != "" && IsLowercase(n) && '|' !in n && !IsWhitespace(n[0]) && !IsWhitespace(n[|n| - 1])
  }

  lemma TrimmedPieceIsNeedle(p: string)
    requires IsLowercase(p) && '|' !in p && Trim(p) != ""
    ensures IsNeedle(Trim(p))
  {
    var t := Trim(p);
    forall i | 0 <= i < |t| ensures !IsUpperAscii(t[i]) && t[i] != '|' {
      TrimAddsNothing(p, t[i]);
    }
  }

  /** `.map((s) => s.trim()).filter(Boolean)`. */
  function TrimAndDropEmpty(pieces: seq<string>): seq<string>
  {
    if pieces == [] then []
    else
      var t := Trim(pieces[0]);
      (if t == "" then [] else [t]) + TrimAndDropEmpty(pieces[1..])
  }

  /** What `TrimAndDropEmpty` keeps: exactly the trimmed pieces that are not empty. */
  lemma {:induction false} TrimAndDropEmptyMembers(pieces: seq<string>, t: string)
    ensures t in TrimAndDropEmpty(pieces) <==> t != "" && exists p :: p in pieces && Trim(p) == t
  {
    if pieces != [] {
      TrimAndDropEmptyMembers(pieces[1..], t);
      assert forall p :: p in pieces <==> p == pieces[0] || p in pieces[1..];
    }
  }

  lemma {:induction false} TrimAndDropEmptyConcat(a: seq<string>, b: seq<string>)
    ensures TrimAndDropEmpty(a + b) == TrimAndDropEmpty(a) + TrimAndDropEmpty(b)
  {
    if a == [] {
      assert a + b == b;
    } else {
      assert (a + b)[1..] == a[1..] + b;
      TrimAndDropEmptyConcat(a[1..], b);
    }
  }

  /**
   * Lines 23-28: join the configured entries with `|`, lower-case, split on `|`, trim,
   * drop empties. A missing list is an empty one.
   */
  function NormaliseNeedles(uaSubstrings: Option<seq<string>>): seq<string>
  {
    TrimAndDropEmpty(Split(ToLower(Join(uaSubstrings.GetOr([]), '|')), '|'))
  }

  /** Every normalised needle is non-empty, lower-case, free of `|` and trimmed. */
  lemma NeedlesWellFormed(uaSubstrings: Option<seq<string>>)
    ensures forall n :: n in NormaliseNeedles(uaSubstrings) ==> IsNeedle(n)
  {
    var pieces := Split(ToLower(Join(uaSubstrings.GetOr([]), '|')), '|');
    forall n | n in NormaliseNeedles(uaSubstrings) ensures IsNeedle(n) {
      TrimAndDropEmptyMembers(pieces, n);
      var p :| p in pieces && Trim(p) == n;
      TrimmedPieceIsNeedle(p);
    }
  }

  /** The needles one configured entry contributes: its `|`-separated pieces, lower-cased and trimmed. */
  function EntryNeedles(entry: string): seq<string> {
    TrimAndDropEmpty(Split(ToLower(entry), '|'))
  }

  /** Each entry's needles, entry after entry. */
  function EachEntryNeedles(entries: seq<string>): seq<string> {
    if entries == [] then [] else EntryNeedles(entries[0]) + EachEntryNeedles(entries[1..])
  }

  lemma {:induction false} JoinedPieces(entries: seq<string>)
    requires |entries| >= 1
    ensures TrimAndDropEmpty(Split(ToLower(Join(entries, '|')), '|')) == EachEntryNeedles(entries)
  {
    if |entries| == 1 {
      assert EachEntryNeedles(entries[1..]) == [];
      assert EachEntryNeedles(entries) == EntryNeedles(entries[0]) + [];
    } else {
      var first, rest := entries[0], Join(entries[1..], '|');
      ToLowerConcat(first + ['|'], rest);
      ToLowerConcat(first, ['|']);
      assert ToLower(['|']) == ['|'];
      SplitAround(ToLower(first), ToLower(rest), '|');
      TrimAndDropEmptyConcat(Split(ToLower(first), '|'), Split(ToLower(rest), '|'));
      JoinedPieces(entries[1..]);
    }
  }

  /**
   * The needle list is, in order, the needles of each configured entry: an entry holding
   * `|` contributes each of its pieces, and splitting does not cross entries.
   */
  lemma NeedlesPerEntry(entries: seq<string>)
    ensures NormaliseNeedles(Some(entries)) == EachEntryNeedles(entries)
  {
    if entries == [] {
      assert Join(entries, '|') == "";
      assert ToLower("") == "";
      assert Split("", '|') == [""];
      assert Trim("") == "";
    } else {
      JoinedPieces(entries);
    }
  }

  /** `needles.some((n) => hay.includes(n))`. */
  function SomeIncluded(hay: string, needles: seq<string>): (r: bool)
    ensures r <==> exists n :: n in needles && Includes(hay, n)
  {
    |needles| > 0 && (Includes(hay, needles[0]) || SomeIncluded(hay, needles[1..]))
  }

  /** Lines 22-30: some normalised needle occurs in the lower-cased user agent; a missing agent is "". */
  function UaMatches(userAgent: Option<string>, uaSubstrings: Option<seq<string>>): (r: bool)
    ensures r <==> exists n :: n in NormaliseNeedles(uaSubstrings) && Includes(ToLower(userAgent.GetOr("")), n)
  {
    SomeIncluded(ToLower(userAgent.GetOr("")), NormaliseNeedles(uaSubstrings))
  }

  /** A missing or empty needle list never matches, whatever the user agent. */
  lemma NoNeedlesNoMatch(userAgent: Option<string>, uaSubstrings: Option<seq<string>>)
    requires uaSubstrings.None? || uaSubstrings == Some([])
    ensures NormaliseNeedles(uaSubstrings) == []
    ensures !UaMatches(userAgent, uaSubstrings)
  {
    NeedlesPerEntry([]);
  }

  /** The match depends on neither the case of the user agent nor that of the configured needles. */
  lemma MatchIgnoresCase(ua1: Option<string>, ua2: Option<string>, subs1: Option<seq<string>>, subs2: Option<seq<string>>)
    requires SameUpToCase(ua1.GetOr(""), ua2.GetOr(""))
    requires LowerAll(subs1.GetOr([])) == LowerAll(subs2.GetOr([]))
    ensures NormaliseNeedles(subs1) == NormaliseNeedles(subs2)
    ensures UaMatches(ua1, subs1) == UaMatches(ua2, subs2)
  {
    ToLowerJoin(subs1.GetOr([]), '|');
    ToLowerJoin(subs2.GetOr([]), '|');
  }

  // ---------------------------------------------------------------------------
  // Startup

  /** What `initialize` did: returned early on the setting, returned on no match, or subscribed. */
  datatype Registration = Disabled | NotMatched | Subscribed

  /**
   * The startup callback: a disabled setting stops everything before the user agent is
   * read; otherwise the page-change callback is subscribed exactly when the agent matches.
   */
  function Initialize(settings: Settings, userAgent: Option<string>): (r: Registration)
    ensures r == Disabled <==> !settings.enabled
    ensures r == Subscribed <==> settings.enabled && UaMatches(userAgent, settings.uaSubstrings)
  {
    if !settings.enabled then Disabled
    else if !UaMatches(userAgent, settings.uaSubstrings) then NotMatched
    else Subscribed
  }

  // ---------------------------------------------------------------------------
  // The page-change callback

  /**
   * The page-change callback on the document's body. Off a login route nothing changes.
   * An existing banner makes it a no-op. Otherwise the banner is prepended; on a missing
   * body, `document.body.prepend` throws and the body stays missing.
   */
  function OnPageChange(pathname: Option<string>, message: string, body: Option<seq<Element>>): (r: Effect)
    ensures !IsLoginRoute(pathname) ==> r == Effect(body, false)
    ensures body.Some? && Count(body.value, BannerSelector) > 0 ==> r == Effect(body, false)
    ensures r.threw <==> IsLoginRoute(pathname) && body.None?
    ensures r.body.Some? <==> body.Some?
    ensures r.body != body ==> body.Some? && r.body == Some([Banner(message)] + body.value)
    ensures body.Some? ==> Others(r.body.value, BannerSelector) == Others(body.value, BannerSelector)
    ensures body.Some? && IsLoginRoute(pathname) ==>
      Count(r.body.value, BannerSelector) == if Count(body.value, BannerSelector) == 0 then 1 else Count(body.value, BannerSelector)
  {
    if !IsLoginRoute(pathname) then Effect(body, false)
    else if body.Some? && QueryFirst(body.value, BannerSelector).Some? then Effect(body, false)
    else if body.None? then Effect(body, true)
    else
      InsertOne(body.value, Banner(message), BannerSelector);
      Effect(Some([Banner(message)] + body.value), false)
  }

  /** The callback as it runs against the document: it returns whether it threw. */
  method HandlePageChange(doc: Document, pathname: Option<string>, message: string) returns (threw: bool)
    modifies doc
    ensures Effect(doc.body, threw) == OnPageChange(pathname, message, old(doc.body))
  {
    if !IsLoginRoute(pathname) {
      return false;
    }
    if doc.Lookup(BannerSelector).Some? {
      return false;
    }
    if doc.body.None? {
      return true;
    }
    var div := Banner(message);
    doc.Prepend(div);
    threw := false;
  }

  /** The body after the callback has run once per page change, in order; a throw ends only that run. */
  function AfterPageChanges(pathnames: seq<Option<string>>, message: string, body: Option<seq<Element>>): Option<seq<Element>>
  {
    if pathnames == [] then body
    else AfterPageChanges(pathnames[1..], message, OnPageChange(pathnames[0], message, body).body)
  }

  /**
   * Starting from at most one banner, any sequence of page changes leaves at most one,
   * never removes it, and leaves every other element as it was; once a login route has
   * been visited there is exactly one.
   */
  lemma {:induction false} PageChangesKeepOneBanner(pathnames: seq<Option<string>>, message: string, body: Option<seq<Element>>)
    requires body.Some? && Count(body.value, BannerSelector) <= 1
    ensures AfterPageChanges(pathnames, message, body).Some?
    ensures Count(AfterPageChanges(pathnames, message, body).value, BannerSelector) <= 1
    ensures Count(AfterPageChanges(pathnames, message, body).value, BannerSelector) >= Count(body.value, BannerSelector)
    ensures Others(AfterPageChanges(pathnames, message, body).value, BannerSelector) == Others(body.value, BannerSelector)
    ensures (exists i :: 0 <= i < |pathnames| && IsLoginRoute(pathnames[i])) ==>
      Count(AfterPageChanges(pathnames, message, body).value, BannerSelector) == 1
  {
    if pathnames != [] {
      var next := OnPageChange(pathnames[0], message, body).body;
      PageChangesKeepOneBanner(pathnames[1..], message, next);
      if exists i :: 0 <= i < |pathnames| && IsLoginRoute(pathnames[i]) {
        var i :| 0 <= i < |pathnames| && IsLoginRoute(pathnames[i]);
        if i > 0 {
          assert IsLoginRoute(pathnames[1..][i - 1]);
        }
      }
    }
  }

  /** A whole page session: startup, then one callback run per page change if subscribed. */
  function Session(settings: Settings, userAgent: Option<string>, pathnames: seq<Option<string>>, body: Option<seq<Element>>): Option<seq<Element>>
  {
    if Initialize(settings, userAgent) == Subscribed then AfterPageChanges(pathnames, settings.message, body)
    else body
  }

  /** With the setting off, or an agent that matches no needle, the document is never touched. */
  lemma InactiveSessionLeavesDocument(settings: Settings, userAgent: Option<string>, pathnames: seq<Option<string>>, body: Option<seq<Element>>)
    requires !settings.enabled || !UaMatches(userAgent, settings.uaSubstrings)
    ensures Session(settings, userAgent, pathnames, body) == body
  {
  }

  /** A session never produces a second banner and never disturbs the other elements. */
  lemma SessionKeepsOneBanner(settings: Settings, userAgent: Option<string>, pathnames: seq<Option<string>>, body: Option<seq<Element>>)
    requires body.Some? && Count(body.value, BannerSelector) <= 1
    ensures Session(settings, userAgent, pathnames, body).Some?
    ensures Count(Session(settings, userAgent, pathnames, body).value, BannerSelector) <= 1
    ensures Others(Session(settings, userAgent, pathnames, body).value, BannerSelector) == Others(body.value, BannerSelector)
  {
    PageChangesKeepOneBanner(pathnames, settings.message, body);
  }
}

=== FILE: dom.dfy ===
/**
 * The part of the browser document the initializers touch: `document.body`, which is
 * absent until the parser creates it, and the elements under it, in document order.
 * Elements are kept flat (the children of body); lookups are `getElementById` and
 * `querySelector` on one class name.
 */
module Dom {
  import opened Wrappers

  /** An element as the banners use it: its id, its class list and its text content. */
  datatype Element = Element(id: string, classes: seq<string>, text: string)

  /** The two lookups the initializers perform: `getElementById(id)` and `querySelector("." + name)`. */
  datatype Selector = ById(id: string) | ByClass(name: string)

  /** An empty id or class name never matches, as in the DOM. */
  predicate Matches(e: Element, sel: Selector) {
    match sel
    case ById(id) => id != "" && e.id == id
    case ByClass(name) => name != "" && name in e.classes
  }

  /** The number of elements a selector matches. */
  function Count(nodes: seq<Element>, sel: Selector): (n: nat)
    ensures n <= |nodes|
    ensures n == 0 <==> forall i :: 0 <= i < |nodes| ==> !Matches(nodes[i], sel)
  {
    if nodes == [] then 0
    else (if Matches(nodes[0], sel) then 1 else 0) + Count(nodes[1..], sel)
  }

  /** The first element, in document order, that a selector matches; `None` plays `null`. */
  function QueryFirst(nodes: seq<Element>, sel: Selector): (r: Option<Element>)
    ensures r.Some? <==> Count(nodes, sel) > 0
    ensures r.Some? ==> r.value in nodes && Matches(r.value, sel)
  {
    if nodes == [] then None
    else if Matches(nodes[0], sel) then Some(nodes[0])
    else QueryFirst(nodes[1..], sel)
  }

  /** The elements a selector does not match, in their order: what a banner insertion must not disturb. */
  function Others(nodes: seq<Element>, sel: Selector): (r: seq<Element>)
    ensures Count(r, sel) == 0
    ensures |r| == |nodes| - Count(nodes, sel)
  {
    if nodes == [] then []
    else (if Matches(nodes[0], sel) then [] else [nodes[0]]) + Others(nodes[1..], sel)
  }

  lemma {:induction false} CountConcat(a: seq<Element>, b: seq<Element>, sel: Selector)
    ensures Count(a + b, sel) == Count(a, sel) + Count(b, sel)
  {
    if a != [] {
      assert (a + b)[1..] == a[1..] + b;
      CountConcat(a[1..], b, sel);
    } else {
      assert a + b == b;
    }
  }

  lemma {:induction false} OthersConcat(a: seq<Element>, b: seq<Element>, sel: Selector)
    ensures Others(a + b, sel) == Others(a, sel) + Others(b, sel)
  {
    if a != [] {
      var head := if Matches(a[0], sel) then [] else [a[0]];
      assert (a + b)[1..] == a[1..] + b;
      assert Others(a + b, sel) == head + Others(a[1..] + b, sel);
      OthersConcat(a[1..], b, sel);
      assert Others(a, sel) == head + Others(a[1..], sel);
    } else {
      assert a + b == b;
    }
  }

  /**
   * Inserting an element at either end adds one match if the element matches and
   * leaves the unmatched elements as they were.
   */
  lemma InsertOne(nodes: seq<Element>, e: Element, sel: Selector)
    requires Matches(e, sel)
    ensures Count([e] + nodes, sel) == Count(nodes, sel) + 1
    ensures Count(nodes + [e], sel) == Count(nodes, sel) + 1
    ensures Others([e] + nodes, sel) == Others(nodes, sel)
    ensures Others(nodes + [e], sel) == Others(nodes, sel)
  {
    CountConcat([e], nodes, sel);
    CountConcat(nodes, [e], sel);
    OthersConcat([e], nodes, sel);
    OthersConcat(nodes, [e], sel);
    assert Others([e], sel) == [];
    assert Count([e], sel) == 1;
  }

  /** What a page-change callback did: the body afterwards, and whether it threw into the host. */
  datatype Effect = Effect(body: Option<seq<Element>>, threw: bool)

  /** The browser document, reduced to `document.body`. */
  class Document {
    var body: Option<seq<Element>>

    constructor (body: Option<seq<Element>>)
      ensures this.body == body
    {
      this.body := body;
    }

    /** `getElementById` / `querySelector`: a lookup over the body's elements. */
    function Lookup(sel: Selector): (r: Option<Element>)
      reads this
      ensures r.Some? <==> body.Some? && Count(body.value, sel) > 0
      ensures r.Some? ==> Matches(r.value, sel)
    {
      if body.None? then None else QueryFirst(body.value, sel)
    }

    /** `document.body.prepend(e)`: `e` becomes the first child; the others keep their order. */
    method Prepend(e: Element)
      requires body.Some?
      modifies this
      ensures body == Some([e] + old(body.value))
    {
      body := Some([e] + body.value);
    }

    /** `document.body.appendChild(e)`: `e` becomes the last child; the others keep their order. */
    method AppendChild(e: Element)
      requires body.Some?
      modifies this
      ensures body == Some(old(body.value) + [e])
    {
      body := Some(body.value + [e]);
    }
  }
}

=== FILE: guarded_warning.dfy ===
/**
 * The guarded initializer (common/initializer.js). Inside a try block it reads the user
 * agent, tests it against a fixed case-insensitive alternation and, if it is an in-app
 * browser, subscribes a page-change callback; any exception there is caught and logged.
 * The callback runs later, outside that try: it appends one banner, found again by id.
 */
module GuardedWarning {
  import opened Wrappers
  import opened Text
  import opened Dom
  import opened Alternation

  const BannerId := "inapp-browser-warning"
  const BannerSelector := ById(BannerId)

  /** The banner: a `div` with the banner id; its markup-free `innerHTML` is its text. */
  const Banner := Element(BannerId, [], "\U{26A0}\U{FE0F} Login may fail in in-app browsers. Please open this page in Safari or Chrome.")

  /** The alternatives of `/Snapchat|Instagram|FBAN|FBAV|Line|TikTok|Twitter|LinkedIn/i`. */
  const InAppPattern: seq<string> := ["Snapchat", "Instagram", "FBAN", "FBAV", "Line", "TikTok", "Twitter", "LinkedIn"]

  /** The same words in lower case. */
  const InAppWords: seq<string> := ["snapchat", "instagram", "fban", "fbav", "line", "tiktok", "twitter", "linkedin"]

  /** `isInApp`: the regular expression's `test` on the user agent. */
  predicate IsInApp(userAgent: string) {
    Test(InAppPattern, userAgent)
  }

  lemma PatternLowered()
    ensures LowerAll(InAppPattern) == InAppWords
  {
    assert ToLower("Snapchat") == "snapchat";
    assert ToLower("Instagram") == "instagram";
    assert ToLower("FBAN") == "fban";
    assert ToLower("FBAV") == "fbav";
    assert ToLower("Line") == "line";
    assert ToLower("TikTok") == "tiktok";
    assert ToLower("Twitter") == "twitter";
    assert ToLower("LinkedIn") == "linkedin";
  }

  /** The agent is in-app exactly when, ignoring case, it contains one of the eight words. */
  lemma IsInAppIff(userAgent: string)
    ensures IsInApp(userAgent) <==> exists w :: w in InAppWords && Includes(ToLower(userAgent), w)
  {
    TestIff(InAppPattern, userAgent);
    PatternLowered();
    if IsInApp(userAgent) {
      var k :| 0 <= k < |InAppPattern| && Includes(ToLower(userAgent), ToLower(InAppPattern[k]));
      assert InAppWords[k] in InAppWords;
    }
    if w :| w in InAppWords && Includes(ToLower(userAgent), w) {
      var k :| 0 <= k < |InAppWords| && InAppWords[k] == w;
      assert ToLower(InAppPattern[k]) == w;
    }
  }

  /** The empty user agent, which a missing one becomes, is not in-app. */
  lemma EmptyAgentNotInApp()
    ensures !IsInApp("")
  {
    IsInAppIff("");
    forall w | w in InAppWords ensures !Includes(ToLower(""), w) {
      assert |w| > 0;
    }
  }

  // ---------------------------------------------------------------------------
  // Startup

  /** Reading `navigator.userAgent`: a value, possibly missing, or an exception. */
  datatype UserAgentRead = Read(userAgent: Option<string>) | ReadThrows

  /** What the startup callback did: returned early, subscribed, or caught an exception and logged it. */
  datatype Startup = NotInApp | Subscribed | FailedSafely

  /**
   * The startup callback. A throwing user-agent read or a throwing subscription is caught
   * and logged, never propagated; a missing agent is "". Subscription happens exactly
   * for an in-app agent whose subscription call returns.
   */
  function Initialize(read: UserAgentRead, subscribeThrows: bool): (r: Startup)
    ensures r == Subscribed <==> read.Read? && IsInApp(read.userAgent.GetOr("")) && !subscribeThrows
    ensures r == NotInApp <==> read.Read? && !IsInApp(read.userAgent.GetOr(""))
    ensures read == Read(None) ==> r == NotInApp
  {
    EmptyAgentNotInApp();
    if read.ReadThrows? then FailedSafely
    else
      var ua := read.userAgent.GetOr("");
      if !IsInApp(ua) then NotInApp
      else if subscribeThrows then FailedSafely
      else Subscribed
  }

  // ---------------------------------------------------------------------------
  // The page-change callback

  /**
   * The page-change callback on the document's body. With a banner already present it
   * is a no-op; otherwise the banner is appended. A missing body makes
   * `document.body.appendChild` throw into the host, since this runs outside the try.
   */
  function OnPageChange(body: Option<seq<Element>>): (r: Effect)
    ensures body.Some? && Count(body.value, BannerSelector) > 0 ==> r == Effect(body, false)
    ensures r.threw <==> body.None?
    ensures r.body.Some? <==> body.Some?
    ensures r.body != body ==> body.Some? && r.body == Some(body.value + [Banner])
    ensures body.Some? ==> Others(r.body.value, BannerSelector) == Others(body.value, BannerSelector)
    ensures body.Some? ==>
      Count(r.body.value, BannerSelector) == if Count(body.value, BannerSelector) == 0 then 1 else Count(body.value, BannerSelector)
  {
    if body.Some? && QueryFirst(body.value, BannerSelector).Some? then Effect(body, false)
    else if body.None? then Effect(body, true)
    else
      InsertOne(body.value, Banner, BannerSelector);
      Effect(Some(body.value + [Banner]), false)
  }

  /** The callback as it runs against the document: it returns whether it threw. */
  method HandlePageChange(doc: Document) returns (threw: bool)
    modifies doc
    ensures Effect(doc.body, threw) == OnPageChange(old(doc.body))
  {
    if doc.Lookup(BannerSelector).Some? {
      return false;
    }
    if doc.body.None? {
      return true;
    }
    var banner := Banner;
    doc.AppendChild(banner);
    threw := false;
  }

  /** The body after `n` page changes with the callback subscribed. */
  function AfterPageChanges(n: nat, body: Option<seq<Element>>): Option<seq<Element>>
  {
    if n == 0 then body else AfterPageChanges(n - 1, OnPageChange(body).body)
  }

  /**
   * Starting from at most one banner, any number of page changes leaves at most one and
   * every other element as it was; after at least one there is exactly one.
   */
  lemma {:induction false} PageChangesKeepOneBanner(n: nat, body: Option<seq<Element>>)
    requires body.Some? && Count(body.value, BannerSelector) <= 1
    ensures AfterPageChanges(n, body).Some?
    ensures Count(AfterPageChanges(n, body).value, BannerSelector) == if n == 0 then Count(body.value, BannerSelector) else 1
    ensures Others(AfterPageChanges(n, body).value, BannerSelector) == Others(body.value, BannerSelector)
  {
    if n > 0 {
      PageChangesKeepOneBanner(n - 1, OnPageChange(body).body);
    }
  }

  /** A whole page session: startup, then `n` page changes, which run the callback only if it was subscribed. */
  function Session(read: UserAgentRead, subscribeThrows: bool, n: nat, body: Option<seq<Element>>): Option<seq<Element>>
  {
    if Initialize(read, subscribeThrows) == Subscribed then AfterPageChanges(n, body) else body
  }

  /** When the agent is not in-app, or startup failed safely, the document is never touched. */
  lemma UnsubscribedSessionLeavesDocument(read: UserAgentRead, subscribeThrows: bool, n: nat, body: Option<seq<Element>>)
    requires read.ReadThrows? || subscribeThrows || !IsInApp(read.userAgent.GetOr(""))
    ensures Session(read, subscribeThrows, n, body) == body
  {
  }

  /** A subscribed session with a body ends, after one page change or more, with exactly one banner. */
  lemma SessionKeepsOneBanner(read: UserAgentRead, subscribeThrows: bool, n: nat, body: Option<seq<Element>>)
    requires body.Some? && Count(body.value, BannerSelector) <= 1
    ensures Session(read, subscribeThrows, n, body).Some?
    ensures Count(Session(read, subscribeThrows, n, body).value, BannerSelector) <= 1
    ensures Initialize(read, subscribeThrows) == Subscribed && n > 0 ==>
      Count(Session(read, subscribeThrows, n, body).value, BannerSelector) == 1
    ensures Others(Session(read, subscribeThrows, n, body).value, BannerSelector) == Others(body.value, BannerSelector)
  {
    PageChangesKeepOneBanner(n, body);
  }
}

=== FILE: text.dfy ===
/**
 * The string operations the initializers use: `toLowerCase`, `trim`, `split`, `join`,
 * `startsWith` and `includes`, on strings as sequences of characters.
 * Lower-casing is ASCII-only: only 'A'..'Z' change.
 */
module Text {

  /** An ASCII upper-case letter: the only characters lower-casing changes here. */
  predicate IsUpperAscii(c: char) {
    'A' <= c <= 'Z'
  }

  /** `toLowerCase` on one character, restricted to ASCII. */
  function LowerChar(c: char): (r: char)
    ensures !IsUpperAscii(r)
    ensures r == c <==> !IsUpperAscii(c)
  {
    if IsUpperAscii(c) then (c as int + 32) as char else c
  }

  predicate IsLowercase(s: string) {
    forall i :: 0 <= i < |s| ==> !IsUpperAscii(s[i])
  }

  /** `String.prototype.toLowerCase`, ASCII-only. */
  function ToLower(s: string): (r: string)
    ensures IsLowercase(r)
  {
    seq(|s|, i requires 0 <= i < |s| => LowerChar(s[i]))
  }

  /** Two strings that differ at most in the case of their letters. */
  predicate SameUpToCase(a: string, b: string) {
    ToLower(a) == ToLower(b)
  }

  lemma ToLowerConcat(a: string, b: string)
    ensures ToLower(a + b) == ToLower(a) + ToLower(b)
  {
  }

  lemma ToLowerOfLowercase(s: string)
    requires IsLowercase(s)
    ensures ToLower(s) == s
  {
  }

  /** The characters `String.prototype.trim` removes: ECMAScript WhiteSpace and LineTerminator. */
  predicate IsWhitespace(c: char) {
    var n := c as int;
    n == 0x09 || n == 0x0A || n == 0x0B || n == 0x0C || n == 0x0D || n == 0x20 ||
    n == 0xA0 || n == 0x1680 || (0x2000 <= n <= 0x200A) || n == 0x2028 || n == 0x2029 ||
    n == 0x202F || n == 0x205F || n == 0x3000 || n == 0xFEFF
  }

  predicate AllWhitespace(s: string) {
    forall i :: 0 <= i < |s| ==> IsWhitespace(s[i])
  }

  /** Drops leading whitespace; what is left is a suffix of `s`. */
  function TrimStart(s: string): (r: string)
    ensures |r| <= |s| && r == s[|s| - |r|..]
    ensures AllWhitespace(s[..|s| - |r|])
    ensures r == [] || !IsWhitespace(r[0])
  {
    if |s| > 0 && IsWhitespace(s[0]) then
      var r := TrimStart(s[1..]);
      assert s[1..][..|s| - 1 - |r|] == s[1..|s| - |r|];
      r
    else s
  }

  /** Drops trailing whitespace; what is left is a prefix of `s`. */
  function TrimEnd(s: string): (r: string)
    ensures |r| <= |s| && r == s[..|r|]
    ensures AllWhitespace(s[|r|..])
    ensures r == [] || !IsWhitespace(r[|r| - 1])
  {
    if |s| > 0 && IsWhitespace(s[|s| - 1]) then
      var r := TrimEnd(s[..|s| - 1]);
      assert s[..|s| - 1][|r|..] == s[|r|..|s| - 1];
      r
    else s
  }

  /** `String.prototype.trim`: the result neither starts nor ends with whitespace. */
  function Trim(s: string): (r: string)
    ensures r == [] || (!IsWhitespace(r[0]) && !IsWhitespace(r[|r| - 1]))
  {
    TrimEnd(TrimStart(s))
  }

  /** Trimming removes whitespace from the ends only: the result is `s[i..i + |Trim(s)|]`. */
  lemma TrimIsMiddle(s: string) returns (i: nat)
    ensures i + |Trim(s)| <= |s| && Trim(s) == s[i..i + |Trim(s)|]
    ensures AllWhitespace(s[..i]) && AllWhitespace(s[i + |Trim(s)|..])
  {
    var t := TrimStart(s);
    var r := TrimEnd(t);
    i := |s| - |t|;
    assert r == s[i..i + |r|];
    assert s[i + |r|..] == t[|r|..];
  }

  /** Trimming adds no character. */
  lemma TrimAddsNothing(s: string, c: char)
    requires c in Trim(s)
    ensures c in s
  {
    var i := TrimIsMiddle(s);
    var r := Trim(s);
    var k :| 0 <= k < |r| && r[k] == c;
    assert s[i + k] == c;
  }

  /** Trimming keeps every character that is not whitespace. */
  lemma TrimKeepsText(s: string, c: char)
    requires c in s && !IsWhitespace(c)
    ensures c in Trim(s)
  {
    var i := TrimIsMiddle(s);
    var r := Trim(s);
    var k :| 0 <= k < |s| && s[k] == c;
    if i <= k < i + |r| {
      assert r[k - i] == c;
    } else {
      assert false;
    }
  }

  /** `s.startsWith(prefix)`. */
  predicate StartsWith(s: string, prefix: string) {
    |prefix| <= |s| && s[..|prefix|] == prefix
  }

  /** `needle` occurs in `hay` starting at index `i`. */
  predicate OccursAt(hay: string, needle: string, i: nat) {
    i + |needle| <= |hay| && hay[i..i + |needle|] == needle
  }

  /** `hay.includes(needle)`: some index where `needle` occurs. */
  predicate Includes(hay: string, needle: string) {
    exists i: nat :: i <= |hay| && OccursAt(hay, needle, i)
  }

  /** `parts.join(sep)` with a one-character separator. */
  function Join(parts: seq<string>, sep: char): string {
    if |parts| == 0 then ""
    else if |parts| == 1 then parts[0]
    else parts[0] + [sep] + Join(parts[1..], sep)
  }

  /**
   * `s.split(sep)` with a one-character separator: always at least one piece,
   * no piece holds the separator, and joining the pieces gives `s` back.
   */
  function Split(s: string, sep: char): (r: seq<string>)
    ensures |r| >= 1
    ensures forall k :: 0 <= k < |r| ==> sep !in r[k]
    ensures IsLowercase(s) ==> forall k :: 0 <= k < |r| ==> IsLowercase(r[k])
    ensures Join(r, sep) == s
  {
    if |s| == 0 then [""]
    else
      var rest := Split(s[1..], sep);
      if s[0] == sep then
        assert s == [sep] + s[1..];
        [""] + rest
      else
        var r := [[s[0]] + rest[0]] + rest[1..];
        assert r[1..] == rest[1..];
        assert s == [s[0]] + s[1..];
        r
  }

  /** `Split` of a string made of two parts around a separator splits each part. */
  lemma {:induction false} SplitAround(a: string, b: string, sep: char)
    ensures Split(a + [sep] + b, sep) == Split(a, sep) + Split(b, sep)
  {
    if |a| == 0 {
      assert a + [sep] + b == [sep] + b;
      assert ([sep] + b)[1..] == b;
    } else {
      assert (a + [sep] + b)[1..] == a[1..] + [sep] + b;
      SplitAround(a[1..], b, sep);
    }
  }

  /** A string without the separator is one piece. */
  lemma {:induction false} SplitWithoutSeparator(s: string, sep: char)
    requires sep !in s
    ensures Split(s, sep) == [s]
  {
    if |s| > 0 {
      SplitWithoutSeparator(s[1..], sep);
      assert s == [s[0]] + s[1..];
    }
  }

  /** Splitting what was joined gives the parts back, when no part holds the separator. */
  lemma {:induction false} SplitJoin(parts: seq<string>, sep: char)
    requires |parts| >= 1
    requires forall k :: 0 <= k < |parts| ==> sep !in parts[k]
    ensures Split(Join(parts, sep), sep) == parts
  {
    if |parts| == 1 {
      SplitWithoutSeparator(parts[0], sep);
    } else {
      SplitJoin(parts[1..], sep);
      SplitAround(parts[0], Join(parts[1..], sep), sep);
      SplitWithoutSeparator(parts[0], sep);
      assert parts == [parts[0]] + parts[1..];
    }
  }

  /** Every string of a list lower-cased. */
  function LowerAll(xs: seq<string>): seq<string> {
    seq(|xs|, k requires 0 <= k < |xs| => ToLower(xs[k]))
  }

  /** Lower-casing a joined list lower-cases each part ('|'-style separators are not letters). */
  lemma {:induction false} ToLowerJoin(parts: seq<string>, sep: char)
    requires !IsUpperAscii(sep)
    ensures ToLower(Join(parts, sep)) == Join(LowerAll(parts), sep)
  {
    if |parts| > 1 {
      ToLowerJoin(parts[1..], sep);
      assert LowerAll(parts)[1..] == LowerAll(parts[1..]);
      ToLowerConcat(parts[0] + [sep], Join(parts[1..], sep));
      ToLowerConcat(parts[0], [sep]);
    }
  }
}

=== FILE: wrappers.dfy ===
/** The optional value used for JavaScript's `undefined`/`null` reads. */
module Wrappers {

  datatype Option<+T> = None | Some(value: T) {

    /** The value, or `default` when absent: the model of `x || default` on a read that may be missing. */
    function GetOr(default: T): T {
      match this
      case Some(v) => v
      case None => default
    }
  }
}
